=== FILE: README.md ===
# webform_civicrm admin form behaviours, modelled in Dafny

This project models the decision rules inside the webform_civicrm admin
form script. The script attaches to the CiviCRM integration settings form of a
Drupal webform. The DOM is replaced by plain values: strings, sequences and
records. Each event handler's decision is a pure function over that state.

- `Common` (common.dfy): the optional value, the sentinel option value
  `create_civicrm_webform_element`, the neutral value `0`, and an
  order-preserving `Filter`.
- `Text` (text.dfy): JavaScript's `split` with a one-character separator, its
  inverse `Join`, and jQuery's `$.trim`.
- `SelectReset` (select_reset.dfy): the `all` / `none` / `reset` links over
  checkboxes and selects. The model follows the DOM rule that selecting an
  option of a single select deselects the other options.
- `Participant` (participant.dfy): deriving the (role id, event id, event
  type) context from the selected events, and showing or hiding the
  conditional participant fieldsets by their class tokens.
- `Relationships` (relationships.dfy): rebuilding a relationship-type
  selector for a pair of contacts from the static relationship-type table,
  and the value it keeps afterwards.
- `Summaries` (summaries.dfy): the summary texts of collapsed sections,
  including `CheckLength`'s cut to 43 characters plus `...`.
- `AddressMaster` (address_master.dfy): the shared-address selector that
  enables or disables a fieldset's address checkboxes.

Escaping (`Drupal.checkPlain`) and translation (`Drupal.t`) are host
functions. They are passed in as `string -> string` parameters, and nothing is
assumed about them. A relationship-type field that is `null` or empty in the
table is the empty string here. JavaScript treats both as false. `"0"` is a
non-empty string and counts as present.

The model reads `.attr()` with the names `checked`, `selected`,
`defaultChecked` and `defaultSelected` as jQuery releases before 1.6 do:
as reads and writes of the element's DOM properties. So `attr('checked', '')`
unchecks a box, and `attr('defaultSelected')` reads the option's default flag.

Three consequences of the script's exact code:
- Mode `none` first restores a single select's defaults if it shows the
  sentinel. If it still shows the sentinel, the script selects its second
  option, whatever that option's value is.
- A reverse relationship option needs `name_a_b !== name_b_a`. The two
  labels are not compared.
- Reset on a single select leaves only its last default option selected.

## Model

| member | source | states |
|---|---|---|
| `SelectReset.ApplyMode` | webform_civicrm_admin.js:11-46 | `all` checks every checkbox and `none` unchecks every one. `reset` gives every checkbox its default. An unknown mode changes nothing. Selects change only in which options are selected. |
| `SelectReset.Sweep` | webform_civicrm_admin.js:40-42 | Assigning `selected` flags option by option in document order changes only which options are selected. `SelectReset.SweepEffect` says which ones end selected. |
| `SelectReset.SweepEffect` | webform_civicrm_admin.js:40-42 | Options are assigned in document order. In a single select, the last option that gets selected is the only one left selected. Otherwise every assigned option holds its assigned flag and the rest are untouched. |
| `SelectReset.ResetRestoresDefaults` | webform_civicrm_admin.js:36-43 | Reset puts a multi-select exactly at its defaults. A single select keeps only its last default option. When a select has at most one default option, that is exactly its defaults. |
| `SelectReset.SelectAllEffect` | webform_civicrm_admin.js:14-18 | `all` selects every multi-select option. A single select with a sentinel option ends with only its last sentinel option selected. A single select without one keeps its selection. |
| `SelectReset.ClearEffect` | webform_civicrm_admin.js:20-34 | `none` deselects every multi-select option. It leaves a single select alone unless that select shows the sentinel. A single select showing the sentinel goes back to its defaults. If the defaults still show the sentinel, it moves to its second option. So it ends on the sentinel only when it has fewer than two options or a sentinel second option. |
| `SelectReset.SelectAllOptions` | webform_civicrm_admin.js:16-18 | Mode `all` on one select changes only which options are selected. `SelectReset.SelectAllEffect` says which. |
| `SelectReset.ClearSelect` | webform_civicrm_admin.js:22-34 | Mode `none` on one select changes only which options are selected. `SelectReset.ClearEffect` says which. |
| `SelectReset.ResetSelect` | webform_civicrm_admin.js:40-42 | Mode `reset` on one select changes only which options are selected. `SelectReset.ResetRestoresDefaults` says which. |
| `SelectReset.AllModeSelectsMultiSelects` | webform_civicrm_admin.js:14-18 | Across the scope, every option of every multi-select ends selected. |
| `SelectReset.NoneModeClearsMultiSelects` | webform_civicrm_admin.js:32-34 | Across the scope, every option of every multi-select ends deselected. |
| `SelectReset.AllModeSingleSelects` | webform_civicrm_admin.js:16-18 | Across the scope, a single select with a sentinel option ends with exactly its last sentinel option selected. A single select without one keeps its selection. |
| `SelectReset.NoneModeSingleSelects` | webform_civicrm_admin.js:22-31 | Across the scope, a single select not showing the sentinel is untouched. One showing it goes back to its defaults. If those still show the sentinel, it moves to its second option. It ends on the sentinel only when it has fewer than two options or a sentinel second option. |
| `SelectReset.ResetModeSingleSelects` | webform_civicrm_admin.js:40-42 | Across the scope, a single select ends with only its last default option selected, or none selected if it has no default. |
| `SelectReset.ResetModeRestoresDefaults` | webform_civicrm_admin.js:36-43 | Across the scope, every multi-select ends at its defaults. So does every single select with at most one default option. |
| `SelectReset.ResetIdempotent` | webform_civicrm_admin.js:40-42 | A second reset of a select changes nothing. |
| `Participant.Context` | webform_civicrm_admin.js:49-72 | The role id is passed through. A non-`0` event id means exactly one event is selected, and the id is a prefix of that event's value. A non-`0` event type is the type of every selected event. `Participant.DeriveContext` proves the script's loop computes this context. |
| `Participant.CollectEvents` | webform_civicrm_admin.js:54-60 | The events are exactly the selected values other than the sentinel, in document order. |
| `Participant.DeriveContext` | webform_civicrm_admin.js:49-72 | The event id is the part before the first `-` when exactly one non-sentinel event is selected, and `0` otherwise. The event type is the global one when no event is selected. It is the shared type when all selected events have the same type, and `0` as soon as two types differ. |
| `Participant.Shown` | webform_civicrm_admin.js:77-88 | A section without any `roleid`/`eventtype`/`eventid` token is hidden. `Participant.ShownIff` gives the full condition. |
| `Participant.ShownIff` | webform_civicrm_admin.js:74-88 | A section is shown exactly when its first `roleid`/`eventtype`/`eventid` token has a `-`-part equal to the context entry that token names. A section with no such token is hidden. |
| `Participant.LaterTokensIgnored` | webform_civicrm_admin.js:77-87 | The scan stops at the first conditional token, so tokens after it never change the outcome. |
| `Participant.Evaluate` | webform_civicrm_admin.js:74-96 | A section is visible exactly when its first conditional token matches. Its checkboxes are disabled exactly when it is hidden. Its class list is unchanged. |
| `Participant.ParticipantConditional` | webform_civicrm_admin.js:48-97 | Every section is evaluated against the one context derived from the selected events. |
| `Participant.ParticipantConditionalIdempotent` | webform_civicrm_admin.js:74-97 | Running the handler again with unchanged inputs changes nothing. |
| `Relationships.ContactOf` | webform_civicrm_admin.js:109-118 | A contact's sub-types are its selected sub-type values without the sentinel. |
| `Relationships.Emitted` | webform_civicrm_admin.js:128-142 | One table entry gives its forward option once, exactly when (A, B) meets its tests. It gives its reverse option once, exactly when (B, A) meets them and the two names differ. The forward option comes first, and nothing else is given. |
| `Relationships.Generated` | webform_civicrm_admin.js:126-143 | The table gives at most two options per entry. `Relationships.GeneratedAppend` makes it the concatenation of each entry's `Relationships.Emitted` list in table order, so each admitted option appears exactly once per entry. `Relationships.GeneratedIff` says which options appear. |
| `Relationships.GeneratedAppend` | webform_civicrm_admin.js:126-143 | Options follow table order. The options for a split table are those of the first part followed by those of the second. |
| `Relationships.GeneratedIff` | webform_civicrm_admin.js:126-143 | An option is generated exactly when some entry yields it. An entry yields its forward option when (A, B) meets its four equal-or-wildcard and member-or-wildcard tests. It yields its reverse option when (B, A) meets them and its two names differ. |
| `Relationships.ForwardOffered` | webform_civicrm_admin.js:128-134 | When ids are distinct, `<id>_a` is offered exactly when both types and both sub-types of (A, B) are admitted. |
| `Relationships.ReverseOffered` | webform_civicrm_admin.js:135-142 | When ids are distinct, `<id>_b` is offered exactly when (B, A) is admitted and `name_a_b` differs from `name_b_a`. An entry with equal names never yields `_b`. |
| `Relationships.SwapDuality` | webform_civicrm_admin.js:128-142 | For an entry with distinct names, its reverse option is offered for (A, B) exactly when its forward option is offered for (B, A). |
| `Relationships.ForwardBeforeReverse` | webform_civicrm_admin.js:126-143 | When one entry yields both its options, its forward option sits directly before its reverse option in the generated list. |
| `Relationships.Rebuild` | webform_civicrm_admin.js:121-149 | The new options are the old `0` and sentinel options plus the generated ones. The kept options of the new list are the old kept options, in their old order. Its other options are exactly the generated list, in table order. The previous value is kept if some new option carries it. Otherwise the value becomes `0`. |
| `Relationships.KeptOptionsFirst` | webform_civicrm_admin.js:125-143 | The surviving `0` and sentinel options come before every generated option: anything placed before a kept option is itself kept. Together with `Relationships.Rebuild` this fixes the whole rebuilt list. |
| `Relationships.RebuildValueOffered` | webform_civicrm_admin.js:144-149 | After a rebuild the value names an offered option or is `0`. The value is kept exactly when it was `0` or is still offered. |
| `Relationships.ForwardChoiceKept` | webform_civicrm_admin.js:121-149 | A chosen forward option survives a rebuild while the pair still satisfies its entry. |
| `Relationships.RebuildIdempotent` | webform_civicrm_admin.js:120-150 | A second rebuild for the same pair returns the same options and value, because no generated value is `0` or the sentinel. |
| `Relationships.RelationshipOptions` | webform_civicrm_admin.js:104-152 | With one contact or none, nothing changes. With more, every selector is rebuilt for its own contact pair. |
| `Summaries.Truncate` | webform_civicrm_admin.js:167-169 | A text of at most 45 characters is kept whole. A longer text becomes 46 characters: its first 43 and then `...`. The first min(length, 43) characters always survive. |
| `Summaries.CheckLength` | webform_civicrm_admin.js:165-171 | The escaped text is cut the same way, so the result is never longer than 46 characters. |
| `Summaries.TruncateIdempotent` | webform_civicrm_admin.js:167-169 | Cutting an already cut text changes nothing. |
| `Summaries.ContactSummaryStep` | webform_civicrm_admin.js:183-186 | Adding ` (` and the first sub-type, or `, ` and a later one, extends the summary by one more joined part. |
| `Summaries.ContactSummary` | webform_civicrm_admin.js:180-191 | The loop that uses the `first` flag produces the type text. When any sub-type is selected, the type text is followed by the trimmed sub-type texts joined by `, ` inside ` (`…`)`. |
| `Summaries.Accumulate` | webform_civicrm_admin.js:224-226 | The accumulation only appends: the text so far stays a prefix, and the result ends with the last label. `Summaries.AccumulateIsJoin` gives the full result. |
| `Summaries.OptionsSummary` | webform_civicrm_admin.js:222-228 | Accumulating only behind non-empty text gives the `, `-join of the trimmed labels with the leading empty labels dropped. |
| `Summaries.AccumulateIsJoin` | webform_civicrm_admin.js:223-226 | Continuing the accumulation from the summary of the labels seen so far gives the summary of all the labels. |
| `Summaries.DropLeadingEmptySuffix` | webform_civicrm_admin.js:225 | Only the leading empty labels lose their place. Everything from the first non-empty label on is kept. |
| `Summaries.MessageSummary` | webform_civicrm_admin.js:192-199 | An enabled message gives the cut message. A disabled one gives the translated none text. |
| `Summaries.PrefixSummary` | webform_civicrm_admin.js:200-211 | The result is the known-contact prefix cut to length. If that prefix is empty, it is the unknown-contact prefix cut to length. If both are empty, it is the translated none text. |
| `Summaries.KnownPrefixWins` | webform_civicrm_admin.js:201-206 | A non-empty known prefix makes the unknown prefix irrelevant. The result then has at most 46 characters. |
| `Summaries.ActivitySummary` | webform_civicrm_admin.js:215-221 | The summary always ends with the activity text. The case text and a space come before it exactly when the case value is a positive numeral. |
| `AddressMaster.ApplyMaster` | webform_civicrm_admin.js:268-281 | The address checkboxes are shown and enabled exactly when the selector holds the sentinel or `0`. Otherwise they are hidden and disabled. |
| `AddressMaster.ApplyMasterStateless` | webform_civicrm_admin.js:271-280 | The outcome depends only on the selector value and not on the previous state, so firing the handler again changes nothing. |
| `Text.Split` | webform_civicrm_admin.js:62 | A split has at least one part, and no part contains the separator. `Text.JoinSplit` and `Text.SplitHead` give the rest. |
| `Text.JoinSplit` | webform_civicrm_admin.js:62 | Joining the parts of a `-` split with `-` gives back the event value. |
| `Text.SplitJoin` | webform_civicrm_admin.js:78 | Splitting a join of separator-free parts gives back the parts. |
| `Text.SplitHead` | webform_civicrm_admin.js:62-64 | The first part of a split is the value's prefix up to its first separator. The split has one part exactly when the value has no separator. |
| `Text.Trim` | webform_civicrm_admin.js:185 | Trimming never lengthens a text. `Text.TrimRemovesOuterSpace` says what is removed. |
| `Text.TrimRemovesOuterSpace` | webform_civicrm_admin.js:185 | Trimming returns a slice of the text with only whitespace outside it, and the result neither starts nor ends with whitespace. |
| `Text.TrimIdempotent` | webform_civicrm_admin.js:185 | Trimming a trimmed text changes nothing. |

## Left out

- jQuery element selection, attribute writes, `.once()` binding and the
  `.change()` cascades that re-fire handlers. Each handler's decision is
  modelled as a pure function, and the cascade is not modelled.
- The `hide(300)`/`show(300)` animations and the opacity, class and
  `disabled` toggles driven by `#edit-nid`. These are purely visual or trivial
  switches.
- The form submit when the number of contacts changes. This is I/O.
- `ContactMatchCheckbox` and the `toggle_message` enable switch. Each is a
  one-comparison show/enable toggle.
- The event summary. It returns the selected registration type's text
  unchanged, so there is nothing to model.
- Reading the contact pair out of a selector's element id. Each selector
  carries its pair directly. An id naming a missing contact makes the script
  throw a TypeError, and that case is not modelled.
- `Drupal.checkPlain` and `Drupal.t`. They are uninterpreted function
  parameters.
- `Summaries.Truncate`: lengths count Dafny characters (Unicode scalar
  values). JavaScript's `length` counts UTF-16 code units, so texts with
  characters outside the Basic Multilingual Plane are cut at a different
  point.
- `Text.Trim`: `$.trim` strips every character of JavaScript's `\s` class.
  `Text.IsSpace` knows only the ASCII blanks and the no-break space. So
  `Text.TrimRemovesOuterSpace`, `Summaries.ContactSummary` and
  `Summaries.OptionsSummary` speak of this narrower whitespace set.
- `Summaries.ActivitySummary`: the script's `val() > 0` is a JavaScript
  numeric comparison. The model accepts only non-empty all-digit strings that
  are not all zeros. Any other numeric spelling that JavaScript reads as
  positive is not modelled.
- `Relationships.Rebuild`: when the previous value is gone and no `0` option
  is left, the model records the value `0`. `.val("0")` clears every
  option's selected flag, and the browser then shows the drop-down's first
  remaining option. A later rebuild would read that option's value.
- `Relationships.Forward` and `Relationships.Reverse`: the script builds
  each option from an HTML string, so the browser decodes entities and drops
  tags in a label, and parses the id as an attribute value. The model stores
  the raw id and label strings.
- `Relationships.ForwardOffered`: the per-entry if-and-only-if assumes
  distinct relationship-type ids. `Relationships.GeneratedIff` states the
  general case without that assumption.
- `SelectReset.ClearEffect`: `option:first-child+option` is modelled as the
  select's second option. Options inside `<optgroup>` elements are not
  modelled. A single select with no option flagged selected shows its first
  option (`SelectReset.Value`), and its flags are not rewritten to say so.
- JavaScript loose equality between numbers and strings. Every value is a
  string, and the contact count is a natural number.
- `for … in` over arrays also visits inherited enumerable properties. The
  model visits array indices only.

=== FILE: address_master.dfy ===
/**
  The "share address with" selector of a contact's address fieldset. While
  it names no other contact (the neutral `0`) or the sentinel, the
  address checkboxes are enabled and shown; once it names a contact they
  are disabled and hidden, since the address is then copied from there.
 */
module AddressMaster {
  import opened Common

  /** The address fieldset's checkboxes: their disabled flags and whether their rows are shown. */
  datatype AddressFields = AddressFields(checkboxDisabled: seq<bool>, visible: bool)

  /** The selector leaves the address to be entered here. */
  predicate OwnAddress(master: string)
  {
    master == Sentinel || master == Zero
  }

  /** The change handler of the selector. */
  function ApplyMaster(master: string, fields: AddressFields): (r: AddressFields)
    ensures |r.checkboxDisabled| == |fields.checkboxDisabled|
    ensures r.visible <==> master == Sentinel || master == Zero
    ensures forall j :: 0 <= j < |r.checkboxDisabled| ==> r.checkboxDisabled[j] == !r.visible
  {
    var own := OwnAddress(master);
    AddressFields(seq(|fields.checkboxDisabled|, j requires 0 <= j < |fields.checkboxDisabled| => !own), own)
  }

  /**
    The outcome depends on the selector's value alone: the handler, fired
    again on attach, reaches the same state from any previous one.
   */
  lemma ApplyMasterStateless(master: string, f: AddressFields, g: AddressFields)
    requires |f.checkboxDisabled| == |g.checkboxDisabled|
    ensures ApplyMaster(master, f) == ApplyMaster(master, g)
    ensures ApplyMaster(master, ApplyMaster(master, f)) == ApplyMaster(master, f)
  {
  }
}

=== FILE: common.dfy ===
/**
  Shared vocabulary of the admin-form model: an optional value (standing for
  JavaScript's `undefined`/`null` where the form can produce them) and the
  sentinel option value that means "create a new linked field".
 */
module Common {

  datatype Option<+T> = None | Some(value: T)

  /** The placeholder option value excluded from every real data comparison. */
  const Sentinel: string := "create_civicrm_webform_element"

  /** The neutral "none" option value of a selector. */
  const Zero: string := "0"

  /** A value that carries data, as opposed to the sentinel. */
  predicate NotSentinel(v: string)
  {
    v != Sentinel
  }

  /** `Filter(p, s)` keeps, in order, the elements of `s` that satisfy `p`. */
  function Filter<T>(p: T -> bool, s: seq<T>): (r: seq<T>)
    ensures |r| <= |s|
    ensures forall i :: 0 <= i < |r| ==> r[i] in s && p(r[i])
    ensures forall i :: 0 <= i < |s| && p(s[i]) ==> s[i] in r
  {
    if |s| == 0 then []
    else (if p(s[0]) then [s[0]] else []) + Filter(p, s[1..])
  }

  /** Filtering distributes over concatenation, so it keeps the input's order. */
  lemma {:induction false} FilterAppend<T>(p: T -> bool, s: seq<T>, t: seq<T>)
    ensures Filter(p, s + t) == Filter(p, s) + Filter(p, t)
  {
    if |s| == 0 {
      assert s + t == t;
    } else {
      assert (s + t)[1..] == s[1..] + t;
      FilterAppend(p, s[1..], t);
    }
  }

  /** A sequence none of whose elements passes `p` filters to nothing. */
  lemma {:induction false} FilterNone<T>(p: T -> bool, s: seq<T>)
    requires forall i :: 0 <= i < |s| ==> !p(s[i])
    ensures Filter(p, s) == []
  {
    if |s| > 0 {
      FilterNone(p, s[1..]);
    }
  }

  /** A sequence all of whose elements pass `p` filters to itself. */
  lemma {:induction false} FilterAll<T>(p: T -> bool, s: seq<T>)
    requires forall i :: 0 <= i < |s| ==> p(s[i])
    ensures Filter(p, s) == s
  {
    if |s| > 0 {
      FilterAll(p, s[1..]);
    }
  }
}

=== FILE: participant.dfy ===
/**
  Conditional visibility of participant sections. The selected role and
  events give a context (role id, event id, event type); each dependent
  section carries class tokens such as `eventtype-2-5` naming the context
  entry it depends on and the values that make it relevant. A section is
  shown, with its checkboxes enabled, or hidden, with them disabled.
 */
module Participant {
  import opened Common
  import opened Text

  /**
    The context. `roleid` is None when the role control yields no single
    string; `eventtype` is None when an event value has no `-`, which in the
    script leaves it undefined.
   */
  datatype Info = Info(roleid: Option<string>, eventid: string, eventtype: Option<string>)

  /** An event option value has the form `<id>-<type>`: the part before the first `-`. */
  function EventId(v: string): string
  {
    Split(v, '-')[0]
  }

  /** The part between the first and the second `-`, if there is a first `-`. */
  function EventType(v: string): Option<string>
  {
    var parts := Split(v, '-');
    if |parts| > 1 then Some(parts[1]) else None
  }

  /** The first `k` events all have the type of the first one. */
  predicate SameTypeUpTo(events: seq<string>, k: nat)
    requires 0 < |events| && k <= |events|
  {
    forall m :: 0 <= m < k ==> EventType(events[m]) == EventType(events[0])
  }

  /**
    The context, stated directly: the event id is `0` unless exactly one
    event is selected; the event type is the global one when no event is
    selected, the common type when all selected events share it, and `0`
    as soon as two differ.
   */
  function Context(roleid: Option<string>, globalType: Option<string>, selected: seq<string>): (r: Info)
    ensures r.roleid == roleid
    ensures r.eventid != Zero ==>
              |Filter(NotSentinel, selected)| == 1 && r.eventid <= Filter(NotSentinel, selected)[0]
    ensures |Filter(NotSentinel, selected)| > 0 && r.eventtype != Some(Zero) ==>
              forall m :: 0 <= m < |Filter(NotSentinel, selected)| ==>
                EventType(Filter(NotSentinel, selected)[m]) == r.eventtype
  {
    var events := Filter(NotSentinel, selected);
    var eventid := if |events| == 1 then EventId(events[0]) else Zero;
    assert |events| == 1 ==> eventid <= events[0] by {
      if |events| == 1 {
        SplitHead(events[0], '-');
      }
    }
    Info(roleid,
         eventid,
         if |events| == 0 then globalType
         else if SameTypeUpTo(events, |events|) then EventType(events[0])
         else Some(Zero))
  }

  /** The selected event values other than the sentinel, in document order. */
  method CollectEvents(selected: seq<string>) returns (events: seq<string>)
    ensures events == Filter(NotSentinel, selected)
  {
    events := [];
    var i := 0;
    while i < |selected|
      invariant 0 <= i <= |selected|
      invariant events == Filter(NotSentinel, selected[..i])
    {
      assert Filter(NotSentinel, selected[..i + 1]) ==
             events + (if NotSentinel(selected[i]) then [selected[i]] else []) by {
        assert selected[..i + 1] == selected[..i] + [selected[i]];
        FilterAppend(NotSentinel, selected[..i], [selected[i]]);
      }
      if selected[i] != Sentinel {
        events := events + [selected[i]];
      }
      i := i + 1;
    }
    assert selected[..|selected|] == selected;
  }

  /**
    The script's derivation: collect the non-sentinel selected events, then
    visit them in order, taking the first event's type and overwriting it
    with `0` whenever a later event's type differs from the current one.
   */
  method DeriveContext(roleid: Option<string>, globalType: Option<string>, selected: seq<string>)
    returns (info: Info)
    ensures info == Context(roleid, globalType, selected)
  {
    var events := CollectEvents(selected);
    var eventid := Zero;
    var eventtype := globalType;
    var k := 0;
    while k < |events|
      invariant 0 <= k <= |events|
      invariant eventid == if |events| == 1 && k == 1 then EventId(events[0]) else Zero
      invariant k == 0 ==> eventtype == globalType
      invariant k > 0 ==> eventtype == if SameTypeUpTo(events, k) then EventType(events[0]) else Some(Zero)
    {
      var t := EventType(events[k]);
      if |events| == 1 {
        eventid := EventId(events[k]);
      }
      if k == 0 {
        eventtype := t;
      } else if eventtype != t {
        eventtype := Some(Zero);
      }
      k := k + 1;
    }
    info := Info(roleid, eventid, eventtype);
  }

  /** The class-token prefixes that make a section conditional. */
  predicate IsKey(key: string)
  {
    key == "roleid" || key == "eventtype" || key == "eventid"
  }

  /** The context entry a key names. */
  function Lookup(info: Info, key: string): Option<string>
    requires IsKey(key)
  {
    if key == "roleid" then info.roleid
    else if key == "eventid" then Some(info.eventid)
    else info.eventtype
  }

  predicate IsCondition(token: string)
  {
    IsKey(Split(token, '-')[0])
  }

  /** Some `-`-part of the token, its key included, equals the context entry the key names. */
  predicate Matches(token: string, info: Info)
    requires IsCondition(token)
  {
    var parts := Split(token, '-');
    exists m :: 0 <= m < |parts| && Some(parts[m]) == Lookup(info, parts[0])
  }

  /** Token `k` is the first conditional token. */
  predicate FirstCondition(tokens: seq<string>, k: int)
  {
    && 0 <= k < |tokens|
    && IsCondition(tokens[k])
    && forall m :: 0 <= m < k ==> !IsCondition(tokens[m])
  }

  /** The script's scan: the first conditional token decides, and the scan stops there. */
  function Shown(tokens: seq<string>, info: Info): (r: bool)
    ensures (forall k :: 0 <= k < |tokens| ==> !IsCondition(tokens[k])) ==> !r
  {
    if |tokens| == 0 then false
    else if IsCondition(tokens[0]) then Matches(tokens[0], info)
    else Shown(tokens[1..], info)
  }

  /**
    A section is shown exactly when its first conditional token matches the
    context; later tokens play no part, and a section without a conditional
    token is hidden.
   */
  lemma {:induction false} ShownIff(tokens: seq<string>, info: Info)
    ensures Shown(tokens, info) <==>
              exists k :: FirstCondition(tokens, k) && Matches(tokens[k], info)
  {
    if |tokens| > 0 && !IsCondition(tokens[0]) {
      ShownIff(tokens[1..], info);
      if Shown(tokens, info) {
        var k :| FirstCondition(tokens[1..], k) && Matches(tokens[1..][k], info);
        assert FirstCondition(tokens, k + 1);
      }
      if exists k :: FirstCondition(tokens, k) && Matches(tokens[k], info) {
        var k :| FirstCondition(tokens, k) && Matches(tokens[k], info);
        assert k > 0;
        assert FirstCondition(tokens[1..], k - 1);
      }
    } else if |tokens| > 0 {
      if exists k :: FirstCondition(tokens, k) && Matches(tokens[k], info) {
        var k :| FirstCondition(tokens, k) && Matches(tokens[k], info);
        assert k == 0;
      }
      assert FirstCondition(tokens, 0);
    }
  }

  /** Tokens after the first conditional one never change the outcome. */
  lemma {:induction false} LaterTokensIgnored(tokens: seq<string>, more: seq<string>, info: Info)
    requires exists k :: 0 <= k < |tokens| && IsCondition(tokens[k])
    ensures Shown(tokens + more, info) == Shown(tokens, info)
  {
    if !IsCondition(tokens[0]) {
      assert (tokens + more)[1..] == tokens[1..] + more;
      var k :| 0 <= k < |tokens| && IsCondition(tokens[k]);
      assert IsCondition(tokens[1..][k - 1]);
      LaterTokensIgnored(tokens[1..], more, info);
    }
  }

  /** A conditional fieldset: its class attribute, visibility and its checkboxes' disabled flags. */
  datatype Section = Section(classes: string, visible: bool, checkboxDisabled: seq<bool>)

  /** The section's first conditional token matches the context. */
  ghost predicate FirstConditionMatches(tokens: seq<string>, info: Info)
  {
    exists k :: FirstCondition(tokens, k) && Matches(tokens[k], info)
  }

  /** One section re-evaluated against the context. */
  function Evaluate(section: Section, info: Info): (r: Section)
    ensures r.classes == section.classes
    ensures |r.checkboxDisabled| == |section.checkboxDisabled|
    ensures forall j :: 0 <= j < |r.checkboxDisabled| ==> r.checkboxDisabled[j] == !r.visible
    ensures r.visible <==> FirstConditionMatches(Split(section.classes, ' '), info)
  {
    var tokens := Split(section.classes, ' ');
    ShownIff(tokens, info);
    var shown := Shown(tokens, info);
    Section(section.classes, shown,
            seq(|section.checkboxDisabled|, j requires 0 <= j < |section.checkboxDisabled| => !shown))
  }

  /** The whole handler: derive the context, then re-evaluate every section. */
  function ParticipantConditional(roleid: Option<string>, globalType: Option<string>, selected: seq<string>,
                                  sections: seq<Section>): (r: seq<Section>)
    ensures |r| == |sections|
    ensures forall k :: 0 <= k < |r| ==> r[k] == Evaluate(sections[k], Context(roleid, globalType, selected))
  {
    var info := Context(roleid, globalType, selected);
    seq(|sections|, k requires 0 <= k < |sections| => Evaluate(sections[k], info))
  }

  /** Running the handler again with unchanged inputs changes nothing. */
  lemma ParticipantConditionalIdempotent(roleid: Option<string>, globalType: Option<string>,
                                         selected: seq<string>, sections: seq<Section>)
    ensures var once := ParticipantConditional(roleid, globalType, selected, sections);
            ParticipantConditional(roleid, globalType, selected, once) == once
  {
  }
}

=== FILE: relationships.dfy ===
/**
  The relationship-type selector between two contacts. Each relationship
  type in the static table constrains the contact type and sub-type of its
  `a` and `b` sides, an empty constraint admitting anything. Rebuilding a
  selector keeps its `0` and sentinel options, appends one forward option
  `<id>_a` per type the pair (A, B) satisfies and one reverse option `<id>_b`
  per type the swapped pair (B, A) satisfies, unless the type's two names
  coincide, and then keeps the previous value if it is still offered.
 */
module Relationships {
  import opened Common

  /** A relationship type; an empty string stands for an absent field. */
  datatype RelType = RelType(
    id: string,
    typeA: string, typeB: string,
    subTypeA: string, subTypeB: string,
    nameAB: string, nameBA: string,
    labelAB: string, labelBA: string)

  /** A contact's type and its selected sub-types, the sentinel excluded. */
  datatype Contact = Contact(ctype: string, subTypes: seq<string>)

  /** An option of the selector. */
  datatype Item = Item(value: string, text: string)

  /** A relationship selector: its options and its current value. */
  datatype Selector = Selector(options: seq<Item>, value: string)

  /** A contact as read from its type select and its sub-type multi-select. */
  function ContactOf(ctype: string, selectedSubTypes: seq<string>): (c: Contact)
    ensures c.ctype == ctype
    ensures Sentinel !in c.subTypes
    ensures forall v :: v in c.subTypes <==> v in selectedSubTypes && v != Sentinel
  {
    Contact(ctype, Filter(NotSentinel, selectedSubTypes))
  }

  /** An empty type constraint admits every contact type. */
  predicate TypeAdmits(constraint: string, actual: string)
  {
    constraint == "" || constraint == actual
  }

  /** An empty sub-type constraint admits every contact; otherwise the contact must have that sub-type. */
  predicate SubTypeAdmits(constraint: string, subTypes: seq<string>)
  {
    constraint == "" || constraint in subTypes
  }

  /** Contact `a` may stand on side `a` of `t` and contact `b` on side `b`. */
  predicate Admits(t: RelType, a: Contact, b: Contact)
  {
    && TypeAdmits(t.typeA, a.ctype)
    && TypeAdmits(t.typeB, b.ctype)
    && SubTypeAdmits(t.subTypeA, a.subTypes)
    && SubTypeAdmits(t.subTypeB, b.subTypes)
  }

  function Forward(t: RelType): Item
  {
    Item(t.id + "_a", t.labelAB)
  }

  function Reverse(t: RelType): Item
  {
    Item(t.id + "_b", t.labelBA)
  }

  /** The options one relationship type contributes, forward before reverse. */
  function Emitted(t: RelType, a: Contact, b: Contact): (r: seq<Item>)
    ensures |r| == (if Admits(t, a, b) then 1 else 0)
                   + (if Admits(t, b, a) && t.nameAB != t.nameBA then 1 else 0)
    ensures Admits(t, a, b) ==> r[0] == Forward(t)
    ensures Forward(t) in r <==> Admits(t, a, b)
    ensures Reverse(t) in r <==> Admits(t, b, a) && t.nameAB != t.nameBA
    ensures forall i :: 0 <= i < |r| ==> r[i] == Forward(t) || r[i] == Reverse(t)
  {
    ForwardIsNotReverse(t, t);
    (if Admits(t, a, b) then [Forward(t)] else [])
    + (if Admits(t, b, a) && t.nameAB != t.nameBA then [Reverse(t)] else [])
  }

  /** The options the whole table contributes, in table order. */
  function Generated(table: seq<RelType>, a: Contact, b: Contact): (r: seq<Item>)
    ensures |r| <= 2 * |table|
  {
    if |table| == 0 then []
    else Emitted(table[0], a, b) + Generated(table[1..], a, b)
  }

  /** Generation is table order: the options of a split table are the options of its parts, concatenated. */
  lemma {:induction false} GeneratedAppend(t1: seq<RelType>, t2: seq<RelType>, a: Contact, b: Contact)
    ensures Generated(t1 + t2, a, b) == Generated(t1, a, b) + Generated(t2, a, b)
  {
    if |t1| == 0 {
      assert t1 + t2 == t2;
    } else {
      assert (t1 + t2)[1..] == t1[1..] + t2;
      GeneratedAppend(t1[1..], t2, a, b);
    }
  }

  /**
    An option is generated exactly when some table entry yields it: as its
    forward option when (A, B) satisfies the entry, or as its reverse option
    when (B, A) satisfies it and its two names differ.
   */
  lemma {:induction false} GeneratedIff(table: seq<RelType>, a: Contact, b: Contact, c: Item)
    ensures c in Generated(table, a, b) <==>
              exists k :: 0 <= k < |table| &&
                ((c == Forward(table[k]) && Admits(table[k], a, b))
                 || (c == Reverse(table[k]) && Admits(table[k], b, a) && table[k].nameAB != table[k].nameBA))
  {
    if |table| > 0 {
      GeneratedIff(table[1..], a, b, c);
      if c in Generated(table[1..], a, b) {
        var k :| 0 <= k < |table[1..]| &&
                ((c == Forward(table[1..][k]) && Admits(table[1..][k], a, b))
                 || (c == Reverse(table[1..][k]) && Admits(table[1..][k], b, a) && table[1..][k].nameAB != table[1..][k].nameBA));
        assert table[1..][k] == table[k + 1];
      }
      if exists k :: 0 <= k < |table| &&
                ((c == Forward(table[k]) && Admits(table[k], a, b))
                 || (c == Reverse(table[k]) && Admits(table[k], b, a) && table[k].nameAB != table[k].nameBA)) {
        var k :| 0 <= k < |table| &&
                ((c == Forward(table[k]) && Admits(table[k], a, b))
                 || (c == Reverse(table[k]) && Admits(table[k], b, a) && table[k].nameAB != table[k].nameBA));
        if k > 0 {
          assert table[1..][k - 1] == table[k];
        }
      }
    }
  }

  /** Relationship type ids are distinct. */
  predicate UniqueIds(table: seq<RelType>)
  {
    forall j, k :: 0 <= j < k < |table| ==> table[j].id != table[k].id
  }

  /** Appending the same suffix to two strings keeps them apart. */
  lemma SuffixCancels(x: string, y: string, suffix: string)
    requires x + suffix == y + suffix
    ensures x == y
  {
    assert |x| == |y|;
    forall i | 0 <= i < |x|
      ensures x[i] == y[i]
    {
      assert x[i] == (x + suffix)[i];
      assert y[i] == (y + suffix)[i];
    }
  }

  /** No forward option value coincides with a reverse one. */
  lemma ForwardIsNotReverse(s: RelType, t: RelType)
    ensures Forward(s).value != Reverse(t).value
  {
    var f := Forward(s).value;
    var r := Reverse(t).value;
    if |f| == |r| {
      assert f[|f| - 1] == 'a';
      assert r[|r| - 1] == 'b';
    }
  }

  /**
    With distinct ids, entry `k`'s forward option is offered exactly when
    (A, B) satisfies its four constraints.
   */
  lemma ForwardOffered(table: seq<RelType>, a: Contact, b: Contact, k: nat)
    requires UniqueIds(table) && k < |table|
    ensures Forward(table[k]) in Generated(table, a, b) <==> Admits(table[k], a, b)
  {
    GeneratedIff(table, a, b, Forward(table[k]));
    if Forward(table[k]) in Generated(table, a, b) {
      var m :| 0 <= m < |table| &&
                ((Forward(table[k]) == Forward(table[m]) && Admits(table[m], a, b))
                 || (Forward(table[k]) == Reverse(table[m]) && Admits(table[m], b, a) && table[m].nameAB != table[m].nameBA));
      ForwardIsNotReverse(table[k], table[m]);
      SuffixCancels(table[k].id, table[m].id, "_a");
    }
  }

  /**
    With distinct ids, entry `k`'s reverse option is offered exactly when
    (B, A) satisfies its four constraints and its names differ; so an entry
    whose two names coincide never yields a reverse option.
   */
  lemma ReverseOffered(table: seq<RelType>, a: Contact, b: Contact, k: nat)
    requires UniqueIds(table) && k < |table|
    ensures Reverse(table[k]) in Generated(table, a, b) <==>
              Admits(table[k], b, a) && table[k].nameAB != table[k].nameBA
  {
    GeneratedIff(table, a, b, Reverse(table[k]));
    if Reverse(table[k]) in Generated(table, a, b) {
      var m :| 0 <= m < |table| &&
                ((Reverse(table[k]) == Forward(table[m]) && Admits(table[m], a, b))
                 || (Reverse(table[k]) == Reverse(table[m]) && Admits(table[m], b, a) && table[m].nameAB != table[m].nameBA));
      ForwardIsNotReverse(table[m], table[k]);
      SuffixCancels(table[k].id, table[m].id, "_b");
    }
  }

  /**
    Swapping the contacts turns reverse options into forward ones: for an
    entry with distinct names, its reverse option is offered for (A, B)
    exactly when its forward option is offered for (B, A).
   */
  lemma SwapDuality(table: seq<RelType>, a: Contact, b: Contact, k: nat)
    requires UniqueIds(table) && k < |table|
    requires table[k].nameAB != table[k].nameBA
    ensures Reverse(table[k]) in Generated(table, a, b) <==> Forward(table[k]) in Generated(table, b, a)
  {
    ReverseOffered(table, a, b, k);
    ForwardOffered(table, b, a, k);
  }

  /** The options a rebuild keeps: the neutral and the sentinel option. */
  predicate IsKept(c: Item)
  {
    c.value == Zero || c.value == Sentinel
  }

  /** Some option carries the value `v`. */
  predicate Offers(options: seq<Item>, v: string)
  {
    exists k :: 0 <= k < |options| && options[k].value == v
  }

  /** An option a rebuild removes from the old list, and the only kind it adds. */
  predicate NotKept(c: Item)
  {
    !IsKept(c)
  }

  /**
    A list of kept options followed by a list of other options splits back
    into the two lists by filtering on either predicate.
   */
  lemma {:induction false} KeptThenOthers(kept: seq<Item>, others: seq<Item>)
    requires forall i :: 0 <= i < |kept| ==> IsKept(kept[i])
    requires forall i :: 0 <= i < |others| ==> NotKept(others[i])
    ensures Filter(IsKept, kept + others) == kept
    ensures Filter(NotKept, kept + others) == others
  {
    FilterAppend(IsKept, kept, others);
    FilterAppend(NotKept, kept, others);
    FilterAll(IsKept, kept);
    FilterNone(IsKept, others);
    FilterNone(NotKept, kept);
    FilterAll(NotKept, others);
  }

  /**
    Rebuilding one selector for the contact pair (A, B): the kept options in
    their old order, then the generated ones; the previous value stays if
    some new option carries it, else the value falls back to `0`.
   */
  function Rebuild(table: seq<RelType>, a: Contact, b: Contact, s: Selector): (r: Selector)
    ensures forall c :: c in r.options <==> (c in s.options && IsKept(c)) || c in Generated(table, a, b)
    ensures Filter(IsKept, r.options) == Filter(IsKept, s.options)
    ensures Filter(NotKept, r.options) == Generated(table, a, b)
    ensures Offers(r.options, s.value) ==> r.value == s.value
    ensures !Offers(r.options, s.value) ==> r.value == Zero
  {
    var kept := Filter(IsKept, s.options);
    var generated := Generated(table, a, b);
    GeneratedNotKept(table, a, b);
    KeptThenOthers(kept, generated);
    var options := kept + generated;
    Selector(options, if Offers(options, s.value) then s.value else Zero)
  }

  /** After a rebuild the value names an offered option, or is the neutral `0`. */
  lemma RebuildValueOffered(table: seq<RelType>, a: Contact, b: Contact, s: Selector)
    ensures var r := Rebuild(table, a, b, s);
            r.value == Zero || Offers(r.options, r.value)
    ensures var r := Rebuild(table, a, b, s);
            r.value == s.value <==> s.value == Zero || Offers(r.options, s.value)
  {
  }

  /** A previously chosen forward option survives a rebuild while the pair still satisfies its entry. */
  lemma ForwardChoiceKept(table: seq<RelType>, a: Contact, b: Contact, s: Selector, k: nat)
    requires k < |table| && s.value == Forward(table[k]).value && Admits(table[k], a, b)
    ensures Rebuild(table, a, b, s).value == s.value
  {
    GeneratedIff(table, a, b, Forward(table[k]));
    var r := Rebuild(table, a, b, s);
    var i :| 0 <= i < |r.options| && r.options[i] == Forward(table[k]);
    assert Offers(r.options, s.value);
  }

  /** Every generated value ends in `_a` or `_b`, so none is `0` or the sentinel. */
  lemma GeneratedNotKept(table: seq<RelType>, a: Contact, b: Contact)
    ensures forall i :: 0 <= i < |Generated(table, a, b)| ==> !IsKept(Generated(table, a, b)[i])
  {
    var g := Generated(table, a, b);
    forall i | 0 <= i < |g|
      ensures !IsKept(g[i])
    {
      GeneratedIff(table, a, b, g[i]);
      var k :| 0 <= k < |table| &&
                ((g[i] == Forward(table[k]) && Admits(table[k], a, b))
                 || (g[i] == Reverse(table[k]) && Admits(table[k], b, a) && table[k].nameAB != table[k].nameBA));
      var v := g[i].value;
      assert |v| >= 2;
      assert v[|v| - 2] == '_';
      assert Sentinel[|Sentinel| - 2] == 'n';
    }
  }

  /**
    Rebuilding twice for the same pair gives the same selector as
    rebuilding once: the handler may fire repeatedly without drift.
   */
  lemma RebuildIdempotent(table: seq<RelType>, a: Contact, b: Contact, s: Selector)
    ensures Rebuild(table, a, b, Rebuild(table, a, b, s)) == Rebuild(table, a, b, s)
  {
  }

  /**
    When an entry yields both its options, the forward option comes
    immediately before the reverse one in the generated list.
   */
  lemma ForwardBeforeReverse(table: seq<RelType>, a: Contact, b: Contact, k: nat)
    requires k < |table|
    requires Admits(table[k], a, b) && Admits(table[k], b, a) && table[k].nameAB != table[k].nameBA
    ensures exists i :: 0 <= i < |Generated(table, a, b)| - 1
                        && Generated(table, a, b)[i] == Forward(table[k])
                        && Generated(table, a, b)[i + 1] == Reverse(table[k])
  {
    var before := table[..k];
    var after := table[k + 1..];
    assert table == before + ([table[k]] + after);
    GeneratedAppend(before, [table[k]] + after, a, b);
    GeneratedAppend([table[k]], after, a, b);
    assert Generated([table[k]], a, b) == Emitted(table[k], a, b) by {
      assert [table[k]][1..] == [];
    }
    var g := Generated(table, a, b);
    var i := |Generated(before, a, b)|;
    assert g[i] == Forward(table[k]);
    assert g[i + 1] == Reverse(table[k]);
  }

  /**
    In a rebuilt selector the kept `0` and sentinel options come first:
    every option before a kept option is itself kept.
   */
  lemma KeptOptionsFirst(table: seq<RelType>, a: Contact, b: Contact, s: Selector)
    ensures var r := Rebuild(table, a, b, s);
            forall i, j :: 0 <= i < j < |r.options| && IsKept(r.options[j]) ==> IsKept(r.options[i])
  {
  }

  /** A relationship selector together with the contact pair its id names. */
  datatype PairSelector = PairSelector(a: Contact, b: Contact, selector: Selector)

  /**
    The handler: with more than one contact, every relationship selector is
    rebuilt for its pair; with at most one contact, nothing changes.
   */
  function RelationshipOptions(contactCount: nat, table: seq<RelType>, selectors: seq<PairSelector>)
    : (r: seq<PairSelector>)
    ensures |r| == |selectors|
    ensures contactCount <= 1 ==> r == selectors
    ensures contactCount > 1 ==> forall k :: 0 <= k < |r| ==>
              && r[k].a == selectors[k].a && r[k].b == selectors[k].b
              && r[k].selector == Rebuild(table, selectors[k].a, selectors[k].b, selectors[k].selector)
  {
    if contactCount <= 1 then selectors
    else
      seq(|selectors|, k requires 0 <= k < |selectors| =>
        selectors[k].(selector := Rebuild(table, selectors[k].a, selectors[k].b, selectors[k].selector)))
  }
}

=== FILE: select_reset.dfy ===
/**
  The admin form's "select all / none / reset" links. A scope holds
  checkboxes and selects; each mode is a state transformer over it.

  Option selection follows the DOM: in a multi-select each option's
  `selected` flag is independent; in a single select, selecting an option
  deselects every other option, while deselecting one leaves the others
  alone. The displayed value of a single select is its first selected
  option, or its first option when none is flagged.
 */
module SelectReset {
  import opened Common

  datatype Checkbox = Checkbox(checked: bool, defaultChecked: bool)

  datatype Choice = Choice(value: string, selected: bool, defaultSelected: bool)

  datatype Select = Select(multiple: bool, options: seq<Choice>)

  datatype Scope = Scope(checkboxes: seq<Checkbox>, selects: seq<Select>)

  /** `t` differs from `s` at most in which options are selected. */
  predicate SameShape(s: Select, t: Select)
  {
    && s.multiple == t.multiple
    && |s.options| == |t.options|
    && forall j :: 0 <= j < |s.options| ==>
         s.options[j].value == t.options[j].value
         && s.options[j].defaultSelected == t.options[j].defaultSelected
  }

  /** Assigning option `i`'s `selected` flag, with the single-select exclusivity rule. */
  function SetSelected(s: Select, i: nat, b: bool): (r: Select)
    requires i < |s.options|
    ensures SameShape(s, r)
    ensures r.options[i].selected == b
    ensures forall j :: 0 <= j < |s.options| && j != i ==>
              r.options[j].selected == (s.options[j].selected && (s.multiple || !b))
  {
    if b && !s.multiple then
      s.(options := seq(|s.options|, j requires 0 <= j < |s.options| => s.options[j].(selected := j == i)))
    else
      s.(options := s.options[i := s.options[i].(selected := b)])
  }

  /**
    Visiting the options in document order from `i` on, assigning
    `plan[j].value` to option `j` where the plan has a value.
   */
  function Sweep(s: Select, plan: seq<Option<bool>>, i: nat): (r: Select)
    requires |plan| == |s.options| && i <= |plan|
    decreases |plan| - i
    ensures SameShape(s, r)
  {
    if i == |plan| then s
    else
      var next := if plan[i].Some? then SetSelected(s, i, plan[i].value) else s;
      Sweep(next, plan, i + 1)
  }

  /** The last position at or after `i` where the plan selects. */
  function LastSelecting(plan: seq<Option<bool>>, i: nat): (r: Option<nat>)
    requires i <= |plan|
    decreases |plan| - i
    ensures r.Some? ==> i <= r.value < |plan| && plan[r.value] == Some(true)
    ensures r.Some? ==> forall k :: r.value < k < |plan| ==> plan[k] != Some(true)
    ensures r.None? ==> forall k :: i <= k < |plan| ==> plan[k] != Some(true)
  {
    if i == |plan| then None
    else
      match LastSelecting(plan, i + 1)
      case Some(k) => Some(k)
      case None => if plan[i] == Some(true) then Some(i) else None
  }

  /**
    What a sweep leaves in option `j`: in a single select whose plan selects
    somewhere, only the last selected position survives; otherwise every
    planned position holds its planned flag and the rest are untouched.
   */
  function SweptFlag(s: Select, plan: seq<Option<bool>>, i: nat, j: nat): bool
    requires |plan| == |s.options| && i <= |plan| && j < |plan|
  {
    var last := LastSelecting(plan, i);
    if !s.multiple && last.Some? then j == last.value
    else if i <= j && plan[j].Some? then plan[j].value
    else s.options[j].selected
  }

  lemma {:induction false} SweepEffect(s: Select, plan: seq<Option<bool>>, i: nat)
    requires |plan| == |s.options| && i <= |plan|
    decreases |plan| - i
    ensures forall j :: 0 <= j < |plan| ==>
              Sweep(s, plan, i).options[j].selected == SweptFlag(s, plan, i, j)
  {
    if i < |plan| {
      var next := if plan[i].Some? then SetSelected(s, i, plan[i].value) else s;
      SweepEffect(next, plan, i + 1);
      assert Sweep(s, plan, i) == Sweep(next, plan, i + 1);
      forall j | 0 <= j < |plan|
        ensures Sweep(s, plan, i).options[j].selected == SweptFlag(s, plan, i, j)
      {
        assert Sweep(next, plan, i + 1).options[j].selected == SweptFlag(next, plan, i + 1, j);
      }
    }
  }

  /** The first option flagged selected. */
  function FirstSelected(options: seq<Choice>): (r: Option<nat>)
    ensures r.Some? ==> r.value < |options| && options[r.value].selected
    ensures r.Some? ==> forall k :: 0 <= k < r.value ==> !options[k].selected
    ensures r.None? ==> forall k :: 0 <= k < |options| ==> !options[k].selected
  {
    if |options| == 0 then None
    else if options[0].selected then Some(0)
    else
      match FirstSelected(options[1..])
      case Some(k) => Some(k + 1)
      case None => None
  }

  /** A single select's value: its first selected option, else its first option. */
  function Value(s: Select): Option<string>
  {
    match FirstSelected(s.options)
    case Some(k) => Some(s.options[k].value)
    case None => if |s.options| > 0 then Some(s.options[0].value) else None
  }

  function ResetPlan(s: Select): (plan: seq<Option<bool>>)
    ensures |plan| == |s.options|
  {
    seq(|s.options|, j requires 0 <= j < |s.options| => Some(s.options[j].defaultSelected))
  }

  function SelectAllPlan(s: Select): (plan: seq<Option<bool>>)
    ensures |plan| == |s.options|
  {
    seq(|s.options|, j requires 0 <= j < |s.options| =>
      if s.multiple || s.options[j].value == Sentinel then Some(true) else None)
  }

  function ClearPlan(s: Select): (plan: seq<Option<bool>>)
    ensures |plan| == |s.options|
  {
    seq(|s.options|, j requires 0 <= j < |s.options| => Some(false))
  }

  /** Mode `reset` on one select: every option takes its default flag, in order. */
  function ResetSelect(s: Select): (r: Select)
    ensures SameShape(s, r)
  {
    Sweep(s, ResetPlan(s), 0)
  }

  /** Mode `all` on one select: multi-select options and sentinel options get selected. */
  function SelectAllOptions(s: Select): (r: Select)
    ensures SameShape(s, r)
  {
    Sweep(s, SelectAllPlan(s), 0)
  }

  /**
    Mode `none` on one select. A multi-select loses every selection. A
    single select showing the sentinel is first put back to its defaults and,
    if it still shows the sentinel, moved to its second option.
   */
  function ClearSelect(s: Select): (r: Select)
    ensures SameShape(s, r)
  {
    if s.multiple then Sweep(s, ClearPlan(s), 0)
    else
      var restored := if Value(s) == Some(Sentinel) then ResetSelect(s) else s;
      if Value(restored) == Some(Sentinel) && |restored.options| >= 2
      then SetSelected(restored, 1, true)
      else restored
  }

  /** The last option whose default flag is set. */
  function LastDefault(s: Select): Option<nat>
  {
    LastSelecting(ResetPlan(s), 0)
  }

  predicate AtMostOneDefault(s: Select)
  {
    forall j, k :: 0 <= j < k < |s.options| ==>
      !(s.options[j].defaultSelected && s.options[k].defaultSelected)
  }

  /**
    Reset puts a multi-select exactly at its defaults; a single select ends
    with only its last default option selected, which is again exactly its
    defaults when it has at most one.
   */
  lemma ResetRestoresDefaults(s: Select)
    ensures s.multiple ==> forall j :: 0 <= j < |s.options| ==>
              ResetSelect(s).options[j].selected == s.options[j].defaultSelected
    ensures !s.multiple ==> forall j :: 0 <= j < |s.options| ==>
              ResetSelect(s).options[j].selected == (LastDefault(s) == Some(j))
    ensures AtMostOneDefault(s) ==> forall j :: 0 <= j < |s.options| ==>
              ResetSelect(s).options[j].selected == s.options[j].defaultSelected
  {
    var plan := ResetPlan(s);
    SweepEffect(s, plan, 0);
    var last := LastSelecting(plan, 0);
    forall j | 0 <= j < |s.options|
      ensures ResetSelect(s).options[j].selected == SweptFlag(s, plan, 0, j)
    {
    }
    if AtMostOneDefault(s) && !s.multiple && last.Some? {
      forall j | 0 <= j < |s.options|
        ensures (j == last.value) == s.options[j].defaultSelected
      {
        assert plan[j] == Some(s.options[j].defaultSelected);
        assert plan[last.value] == Some(true);
      }
    }
  }

  /** Some option of the select carries the sentinel value. */
  predicate HasSentinel(s: Select)
  {
    exists k :: 0 <= k < |s.options| && s.options[k].value == Sentinel
  }

  /** Option `j` is the select's last sentinel option. */
  predicate LastSentinel(s: Select, j: nat)
    requires j < |s.options|
  {
    && s.options[j].value == Sentinel
    && forall k :: j < k < |s.options| ==> s.options[k].value != Sentinel
  }

  /**
    Mode `all` selects every option of a multi-select. A single select with
    a sentinel option ends with only its last sentinel option selected; one
    without keeps its selection.
   */
  lemma SelectAllEffect(s: Select)
    ensures s.multiple ==> forall j :: 0 <= j < |s.options| ==> SelectAllOptions(s).options[j].selected
    ensures !s.multiple ==> forall j :: 0 <= j < |s.options| ==>
              (SelectAllOptions(s).options[j].selected <==>
                 if HasSentinel(s) then LastSentinel(s, j) else s.options[j].selected)
  {
    var plan := SelectAllPlan(s);
    SweepEffect(s, plan, 0);
    forall j | 0 <= j < |s.options|
      ensures SelectAllOptions(s).options[j].selected == SweptFlag(s, plan, 0, j)
    {
    }
    if !s.multiple {
      var last := LastSelecting(plan, 0);
      if HasSentinel(s) {
        var k :| 0 <= k < |s.options| && s.options[k].value == Sentinel;
        assert plan[k] == Some(true);
        assert last.Some?;
        forall j | 0 <= j < |s.options|
          ensures (j == last.value) <==> LastSentinel(s, j)
        {
          assert plan[last.value] == Some(true);
          if s.options[j].value == Sentinel && j != last.value {
            assert plan[j] == Some(true);
            assert j < last.value;
          }
          if j == last.value {
            forall k | j < k < |s.options|
              ensures s.options[k].value != Sentinel
            {
              assert plan[k] != Some(true);
            }
          }
        }
      } else {
        forall j | 0 <= j < |s.options|
          ensures plan[j].None?
        {
        }
      }
    }
  }

  /**
    Mode `none` leaves nothing selected in a multi-select and leaves a
    single select alone unless it shows the sentinel. A single select that
    shows the sentinel goes back to its defaults; if those still show the
    sentinel it moves to its second option, so it ends on the sentinel only
    when it has fewer than two options or a sentinel second option.
   */
  lemma ClearEffect(s: Select)
    ensures s.multiple ==> forall j :: 0 <= j < |s.options| ==> !ClearSelect(s).options[j].selected
    ensures !s.multiple && Value(s) != Some(Sentinel) ==> ClearSelect(s) == s
    ensures !s.multiple && Value(s) == Some(Sentinel) && Value(ResetSelect(s)) != Some(Sentinel) ==>
              ClearSelect(s) == ResetSelect(s)
    ensures !s.multiple && Value(s) == Some(Sentinel) && Value(ResetSelect(s)) == Some(Sentinel)
            && |s.options| >= 2 ==>
              Value(ClearSelect(s)) == Some(s.options[1].value)
    ensures !s.multiple && Value(ClearSelect(s)) == Some(Sentinel) ==>
              |s.options| < 2 || s.options[1].value == Sentinel
  {
    if s.multiple {
      SweepEffect(s, ClearPlan(s), 0);
    } else {
      var restored := if Value(s) == Some(Sentinel) then ResetSelect(s) else s;
      if Value(restored) == Some(Sentinel) && |restored.options| >= 2 {
        var r := SetSelected(restored, 1, true);
        assert FirstSelected(r.options) == Some(1);
      }
    }
  }

  /** Dispatches on the mode string; an unknown mode changes nothing. */
  function ApplyMode(op: string, scope: Scope): (r: Scope)
    ensures |r.checkboxes| == |scope.checkboxes| && |r.selects| == |scope.selects|
    ensures forall k :: 0 <= k < |r.selects| ==> SameShape(scope.selects[k], r.selects[k])
    ensures op == "all" ==> forall k :: 0 <= k < |r.checkboxes| ==> r.checkboxes[k].checked
    ensures op == "none" ==> forall k :: 0 <= k < |r.checkboxes| ==> !r.checkboxes[k].checked
    ensures op == "reset" ==> forall k :: 0 <= k < |r.checkboxes| ==>
              r.checkboxes[k].checked == scope.checkboxes[k].defaultChecked
    ensures forall k :: 0 <= k < |r.checkboxes| ==>
              r.checkboxes[k].defaultChecked == scope.checkboxes[k].defaultChecked
    ensures op != "all" && op != "none" && op != "reset" ==> r == scope
  {
    var boxes := scope.checkboxes;
    var selects := scope.selects;
    if op == "all" then
      Scope(seq(|boxes|, k requires 0 <= k < |boxes| => boxes[k].(checked := true)),
            seq(|selects|, k requires 0 <= k < |selects| => SelectAllOptions(selects[k])))
    else if op == "none" then
      Scope(seq(|boxes|, k requires 0 <= k < |boxes| => boxes[k].(checked := false)),
            seq(|selects|, k requires 0 <= k < |selects| => ClearSelect(selects[k])))
    else if op == "reset" then
      Scope(seq(|boxes|, k requires 0 <= k < |boxes| => boxes[k].(checked := boxes[k].defaultChecked)),
            seq(|selects|, k requires 0 <= k < |selects| => ResetSelect(selects[k])))
    else scope
  }

  /** Mode `all`: every option of every multi-select in the scope ends selected. */
  lemma AllModeSelectsMultiSelects(scope: Scope)
    ensures forall k, j :: 0 <= k < |scope.selects| && scope.selects[k].multiple && 0 <= j < |scope.selects[k].options| ==>
              ApplyMode("all", scope).selects[k].options[j].selected
  {
    forall k | 0 <= k < |scope.selects| {
      SelectAllEffect(scope.selects[k]);
    }
  }

  /** Mode `none`: every option of every multi-select in the scope ends deselected. */
  lemma NoneModeClearsMultiSelects(scope: Scope)
    ensures forall k, j :: 0 <= k < |scope.selects| && scope.selects[k].multiple && 0 <= j < |scope.selects[k].options| ==>
              !ApplyMode("none", scope).selects[k].options[j].selected
  {
    forall k | 0 <= k < |scope.selects| {
      ClearEffect(scope.selects[k]);
    }
  }

  /**
    Mode `all` on the single selects of the scope: one with a sentinel
    option ends with exactly its last sentinel option selected; one without
    keeps its selection.
   */
  lemma AllModeSingleSelects(scope: Scope)
    ensures forall k, j :: 0 <= k < |scope.selects| && !scope.selects[k].multiple && 0 <= j < |scope.selects[k].options| ==>
              (ApplyMode("all", scope).selects[k].options[j].selected <==>
                 if HasSentinel(scope.selects[k]) then LastSentinel(scope.selects[k], j)
                 else scope.selects[k].options[j].selected)
  {
    forall k | 0 <= k < |scope.selects| {
      SelectAllEffect(scope.selects[k]);
    }
  }

  /**
    Mode `none` on the single selects of the scope: one not showing the
    sentinel is untouched; one showing it goes back to its defaults and, if
    those still show the sentinel, to its second option.
   */
  lemma NoneModeSingleSelects(scope: Scope)
    ensures forall k :: 0 <= k < |scope.selects| && !scope.selects[k].multiple ==>
              var s := scope.selects[k];
              var r := ApplyMode("none", scope).selects[k];
              && (Value(s) != Some(Sentinel) ==> r == s)
              && (Value(s) == Some(Sentinel) && Value(ResetSelect(s)) != Some(Sentinel) ==> r == ResetSelect(s))
              && (Value(s) == Some(Sentinel) && Value(ResetSelect(s)) == Some(Sentinel) && |s.options| >= 2 ==>
                    Value(r) == Some(s.options[1].value))
              && (Value(r) == Some(Sentinel) ==> |s.options| < 2 || s.options[1].value == Sentinel)
  {
  }

  /** Mode `reset` on the single selects of the scope: only the last default option ends selected. */
  lemma ResetModeSingleSelects(scope: Scope)
    ensures forall k, j :: 0 <= k < |scope.selects| && !scope.selects[k].multiple && 0 <= j < |scope.selects[k].options| ==>
              ApplyMode("reset", scope).selects[k].options[j].selected == (LastDefault(scope.selects[k]) == Some(j))
  {
    forall k | 0 <= k < |scope.selects| {
      ResetRestoresDefaults(scope.selects[k]);
    }
  }

  /**
    Mode `reset`: every multi-select, and every single select with at most
    one default option, ends exactly at its default selection.
   */
  lemma ResetModeRestoresDefaults(scope: Scope)
    ensures forall k, j ::
              (&& 0 <= k < |scope.selects|
               && (scope.selects[k].multiple || AtMostOneDefault(scope.selects[k]))
               && 0 <= j < |scope.selects[k].options|) ==>
              ApplyMode("reset", scope).selects[k].options[j].selected == scope.selects[k].options[j].defaultSelected
  {
    forall k | 0 <= k < |scope.selects| {
      ResetRestoresDefaults(scope.selects[k]);
    }
  }

  /** Reset is idempotent: a second reset finds nothing to change. */
  lemma ResetIdempotent(s: Select)
    ensures ResetSelect(ResetSelect(s)) == ResetSelect(s)
  {
    var r := ResetSelect(s);
    ResetRestoresDefaults(s);
    ResetRestoresDefaults(r);
    assert ResetPlan(r) == ResetPlan(s);
    var rr := ResetSelect(r);
    assert |rr.options| == |r.options|;
    forall j | 0 <= j < |r.options|
      ensures rr.options[j] == r.options[j]
    {
    }
  }
}

=== FILE: summaries.dfy ===
/**
  The one-line summaries shown for collapsed sections of the admin form.
  Escaping (`checkPlain`) and translation (`translate`) belong to the host
  CMS; they are passed in as functions and nothing is assumed about them.
 */
module Summaries {
  import opened Common
  import opened Text

  /** Longest summary text shown whole. */
  const MaxLength: nat := 45

  /** Characters kept before the ellipsis when a text is cut. */
  const KeptLength: nat := 43

  const Ellipsis: string := "..."

  /** The text, before translation, shown for an empty section. */
  const NoneText: string := "- None -"

  /**
    The cut applied after escaping: a text of at most 45 characters is
    kept whole, a longer one becomes its first 43 characters and `...`.
   */
  function Truncate(e: string): (r: string)
    ensures |e| <= MaxLength ==> r == e
    ensures |e| > MaxLength ==> |r| == KeptLength + |Ellipsis| && r[KeptLength..] == Ellipsis
    ensures |r| <= MaxLength + 1
    ensures var n := if |e| < KeptLength then |e| else KeptLength;
            n <= |r| && r[..n] == e[..n]
  {
    if |e| > MaxLength then e[..KeptLength] + Ellipsis else e
  }

  /** Escape, then cut to the summary length. */
  function CheckLength(checkPlain: string -> string, s: string): (r: string)
    ensures |r| <= MaxLength + 1
    ensures |checkPlain(s)| <= MaxLength ==> r == checkPlain(s)
    ensures |checkPlain(s)| > MaxLength ==>
              r == checkPlain(s)[..KeptLength] + Ellipsis
  {
    Truncate(checkPlain(s))
  }

  /** Cutting an already cut text changes nothing. */
  lemma TruncateIdempotent(e: string)
    ensures Truncate(Truncate(e)) == Truncate(e)
  {
  }

  /** Every text trimmed. */
  function TrimAll(texts: seq<string>): (r: seq<string>)
    ensures |r| == |texts|
    ensures forall i :: 0 <= i < |r| ==> r[i] == Trim(texts[i])
  {
    seq(|texts|, i requires 0 <= i < |texts| => Trim(texts[i]))
  }

  /** Appending one part to a non-empty list appends a separator and the part. */
  lemma {:induction false} JoinAppend(parts: seq<string>, x: string, sep: string)
    requires |parts| > 0
    ensures Join(parts + [x], sep) == Join(parts, sep) + sep + x
  {
    if |parts| == 1 {
      assert (parts + [x])[1..] == [x];
    } else {
      assert (parts + [x])[1..] == parts[1..] + [x];
      JoinAppend(parts[1..], x, sep);
    }
  }

  /** A join starts with its first part. */
  lemma {:induction false} JoinStartsWithFirst(parts: seq<string>, sep: string)
    requires |parts| > 0
    ensures parts[0] <= Join(parts, sep)
  {
  }

  /** The contact summary built from the first `i` sub-types, before the closing parenthesis. */
  function OpenContactSummary(typeText: string, parts: seq<string>, i: nat): string
    requires i <= |parts|
  {
    if i == 0 then typeText else typeText + " (" + Join(parts[..i], ", ")
  }

  /** One step of the contact summary loop: ` (` before the first part, `, ` before the others. */
  lemma ContactSummaryStep(typeText: string, parts: seq<string>, i: nat)
    requires i < |parts|
    ensures OpenContactSummary(typeText, parts, i) + (if i == 0 then " (" else ", ") + parts[i]
            == OpenContactSummary(typeText, parts, i + 1)
  {
    if i > 0 {
      JoinAppend(parts[..i], parts[i], ", ");
      assert parts[..i + 1] == parts[..i] + [parts[i]];
    } else {
      assert Join(parts[..1], ", ") == parts[0];
    }
  }

  /**
    The contact section's summary, built as the script builds it: the
    contact type's text, then, if any sub-type is selected, each trimmed
    sub-type text preceded by ` (` for the first and `, ` for the others,
    and a closing `)`. The result is the type text followed by the
    comma-joined trimmed sub-types in parentheses.
   */
  method ContactSummary(typeText: string, subTypeTexts: seq<string>) returns (summary: string)
    ensures |subTypeTexts| == 0 ==> summary == typeText
    ensures |subTypeTexts| > 0 ==>
              summary == typeText + " (" + Join(TrimAll(subTypeTexts), ", ") + ")"
  {
    summary := typeText;
    if |subTypeTexts| > 0 {
      var trimmed := TrimAll(subTypeTexts);
      var first := true;
      var i := 0;
      while i < |subTypeTexts|
        invariant 0 <= i <= |subTypeTexts|
        invariant first <==> i == 0
        invariant summary == OpenContactSummary(typeText, trimmed, i)
      {
        var part := Trim(subTypeTexts[i]);
        assert part == trimmed[i];
        ContactSummaryStep(typeText, trimmed, i);
        summary := summary + (if first then " (" else ", ") + part;
        first := false;
        i := i + 1;
      }
      assert trimmed[..|subTypeTexts|] == trimmed;
      summary := summary + ")";
    }
  }

  /** The texts from the first non-empty one on. */
  function DropLeadingEmpty(texts: seq<string>): (r: seq<string>)
    ensures |r| == 0 || r[0] != ""
  {
    if |texts| == 0 then []
    else if texts[0] == "" then DropLeadingEmpty(texts[1..])
    else texts
  }

  /** Exactly the leading empty texts are dropped: what remains is a suffix after only empty texts. */
  lemma {:induction false} DropLeadingEmptySuffix(texts: seq<string>)
    ensures var r := DropLeadingEmpty(texts);
            && |r| <= |texts| && r == texts[|texts| - |r|..]
            && forall i :: 0 <= i < |texts| - |r| ==> texts[i] == ""
  {
    if |texts| > 0 && texts[0] == "" {
      DropLeadingEmptySuffix(texts[1..]);
    }
  }

  lemma {:induction false} DropLeadingEmptyAppend(texts: seq<string>, x: string)
    ensures DropLeadingEmpty(texts + [x]) ==
              if DropLeadingEmpty(texts) == [] then DropLeadingEmpty([x])
              else DropLeadingEmpty(texts) + [x]
  {
    if |texts| > 0 {
      assert (texts + [x])[0] == texts[0];
      if texts[0] == "" {
        assert (texts + [x])[1..] == texts[1..] + [x];
        DropLeadingEmptyAppend(texts[1..], x);
      }
    } else {
      assert texts + [x] == [x];
    }
  }

  /** The script's accumulation step: `, ` goes in only behind non-empty text. */
  function AppendLabel(acc: string, x: string): string
  {
    (if acc != "" then acc + ", " else "") + x
  }

  /** One step of the options summary: the separator is added only after non-empty text. */
  lemma OptionsSummaryStep(texts: seq<string>, x: string)
    ensures Join(DropLeadingEmpty(texts + [x]), ", ") == AppendLabel(Join(DropLeadingEmpty(texts), ", "), x)
  {
    var shown := DropLeadingEmpty(texts);
    DropLeadingEmptyAppend(texts, x);
    if shown == [] {
      SingleLabel(x);
    } else {
      LaterLabel(shown, x);
    }
  }

  /** The first label that is not empty starts the summary with no separator. */
  lemma SingleLabel(x: string)
    ensures Join(DropLeadingEmpty([x]), ", ") == AppendLabel(Join([], ", "), x)
  {
  }

  /** Behind a non-empty first label, every further label gets its separator. */
  lemma LaterLabel(shown: seq<string>, x: string)
    requires |shown| > 0 && shown[0] != ""
    ensures Join(shown + [x], ", ") == AppendLabel(Join(shown, ", "), x)
  {
    JoinAppend(shown, x, ", ");
    JoinStartsWithFirst(shown, ", ");
    assert |Join(shown, ", ")| >= |shown[0]| > 0;
  }

  /** The script's left-to-right accumulation of labels onto `acc`. */
  function Accumulate(acc: string, texts: seq<string>): (r: string)
    decreases |texts|
    ensures acc <= r
    ensures |texts| > 0 ==>
              var last := texts[|texts| - 1];
              |last| <= |r| && r[|r| - |last|..] == last
  {
    if |texts| == 0 then acc
    else Accumulate(AppendLabel(acc, texts[0]), texts[1..])
  }

  /** Accumulating further labels onto the summary of `done` gives the summary of them all. */
  lemma {:induction false} AccumulateIsJoin(done: seq<string>, rest: seq<string>)
    ensures Accumulate(Join(DropLeadingEmpty(done), ", "), rest) == Join(DropLeadingEmpty(done + rest), ", ")
    decreases |rest|
  {
    if |rest| == 0 {
      assert done + rest == done;
    } else {
      OptionsSummaryStep(done, rest[0]);
      AccumulateIsJoin(done + [rest[0]], rest[1..]);
      assert done + [rest[0]] + rest[1..] == done + rest;
    }
  }

  /**
    The options section's summary, built as the script builds it: each
    checked item's trimmed label is appended, preceded by `, ` only when the
    text so far is non-empty. The result is the comma-join of the trimmed
    labels once leading empty labels are dropped; later empty labels still
    get their separator.
   */
  function OptionsSummary(checkedLabels: seq<string>): (r: string)
    ensures r == Join(DropLeadingEmpty(TrimAll(checkedLabels)), ", ")
  {
    AccumulateIsJoin([], TrimAll(checkedLabels));
    assert [] + TrimAll(checkedLabels) == TrimAll(checkedLabels);
    Accumulate("", TrimAll(checkedLabels))
  }

  /** The message section's summary: the cut message when the message is enabled. */
  function MessageSummary(checkPlain: string -> string, translate: string -> string,
                          enabled: bool, message: string): (r: string)
    ensures enabled ==> r == CheckLength(checkPlain, message)
    ensures !enabled ==> r == translate(NoneText)
  {
    if enabled then CheckLength(checkPlain, message) else translate(NoneText)
  }

  /**
    The prefix section's summary: the prefix for known contacts, or when
    that is empty the one for unknown contacts, cut to length; the none
    text when both are empty.
   */
  function PrefixSummary(checkPlain: string -> string, translate: string -> string,
                         known: string, unknown: string): (r: string)
    ensures |known| > 0 ==> r == CheckLength(checkPlain, known)
    ensures |known| == 0 && |unknown| > 0 ==> r == CheckLength(checkPlain, unknown)
    ensures |known| == 0 && |unknown| == 0 ==> r == translate(NoneText)
  {
    var text := if |known| > 0 then known else unknown;
    if |text| > 0 then CheckLength(checkPlain, text) else translate(NoneText)
  }

  /** A non-empty known prefix wins: the unknown-contact prefix then plays no part. */
  lemma KnownPrefixWins(checkPlain: string -> string, translate: string -> string,
                        known: string, u1: string, u2: string)
    requires |known| > 0
    ensures PrefixSummary(checkPlain, translate, known, u1) == PrefixSummary(checkPlain, translate, known, u2)
    ensures |PrefixSummary(checkPlain, translate, known, u1)| <= MaxLength + 1
  {
  }

  predicate IsDigit(c: char)
  {
    '0' <= c <= '9'
  }

  /** A decimal numeral greater than zero, the value a chosen case type carries. */
  predicate IsPositiveNumeral(s: string)
  {
    && |s| > 0
    && (forall i :: 0 <= i < |s| ==> IsDigit(s[i]))
    && (exists i :: 0 <= i < |s| && s[i] != '0')
  }

  /**
    The activity section's summary: the activity type's text, prefixed by
    the case type's text and a space when a case type is chosen.
   */
  function ActivitySummary(activityText: string, caseValue: string, caseText: string): (r: string)
    ensures |r| >= |activityText| && r[|r| - |activityText|..] == activityText
    ensures IsPositiveNumeral(caseValue) ==> r[..|r| - |activityText|] == caseText + " "
    ensures !IsPositiveNumeral(caseValue) ==> |r| == |activityText|
  {
    if IsPositiveNumeral(caseValue) then caseText + " " + activityText else activityText
  }
}

=== FILE: text.dfy ===
/**
  String helpers the form script relies on, written out in Dafny:
  JavaScript's `String.prototype.split` with a one-character separator,
  its inverse `Join`, and jQuery's `$.trim`.
 */
module Text {

  /** `Join(parts, sep)`: the parts with `sep` between neighbours. */
  function Join(parts: seq<string>, sep: string): string
  {
    if |parts| == 0 then ""
    else if |parts| == 1 then parts[0]
    else parts[0] + sep + Join(parts[1..], sep)
  }

  /**
    `Split(s, d)`: the maximal runs of `s` free of `d`, in order, including
    empty runs next to a separator or at either end; the empty string splits
    into one empty part, as in JavaScript.
   */
  function Split(s: string, d: char): (parts: seq<string>)
    ensures |parts| >= 1
    ensures forall i :: 0 <= i < |parts| ==> d !in parts[i]
  {
    if |s| == 0 then [""]
    else
      var rest := Split(s[1..], d);
      if s[0] == d then [""] + rest
      else [[s[0]] + rest[0]] + rest[1..]
  }

  /** Splitting and joining back with the same separator restores the string. */
  lemma {:induction false} JoinSplit(s: string, d: char)
    ensures Join(Split(s, d), [d]) == s
  {
    if |s| > 0 {
      var rest := Split(s[1..], d);
      JoinSplit(s[1..], d);
      if s[0] == d {
        assert Split(s, d) == [""] + rest;
        assert ([""] + rest)[1..] == rest;
      } else {
        var parts := Split(s, d);
        assert parts == [[s[0]] + rest[0]] + rest[1..];
        if |rest| == 1 {
          assert Join(rest, [d]) == rest[0];
        } else {
          assert parts[1..] == rest[1..];
          assert Join(rest, [d]) == rest[0] + [d] + Join(rest[1..], [d]);
        }
      }
    }
  }

  /** Joining separator-free parts and splitting again restores the parts. */
  lemma {:induction false} SplitJoin(parts: seq<string>, d: char)
    requires |parts| >= 1
    requires forall i :: 0 <= i < |parts| ==> d !in parts[i]
    ensures Split(Join(parts, [d]), d) == parts
  {
    if |parts| == 1 {
      SplitNoSeparator(parts[0], d);
    } else {
      SplitJoin(parts[1..], d);
      SplitAfterSeparator(parts[0], Join(parts[1..], [d]), d);
      assert Join(parts, [d]) == parts[0] + [d] + Join(parts[1..], [d]);
      assert [parts[0]] + parts[1..] == parts;
    }
  }

  /** A string without the separator is its own single part. */
  lemma {:induction false} SplitNoSeparator(s: string, d: char)
    requires d !in s
    ensures Split(s, d) == [s]
  {
    if |s| > 0 {
      assert d !in s[1..];
      SplitNoSeparator(s[1..], d);
      assert [s[0]] + s[1..] == s;
    }
  }

  /** A separator-free prefix followed by the separator becomes the first part. */
  lemma {:induction false} SplitAfterSeparator(p: string, t: string, d: char)
    requires d !in p
    ensures Split(p + [d] + t, d) == [p] + Split(t, d)
  {
    if |p| == 0 {
      assert p + [d] + t == [d] + t;
      assert ([d] + t)[1..] == t;
    } else {
      assert (p + [d] + t)[1..] == p[1..] + [d] + t;
      assert d !in p[1..];
      SplitAfterSeparator(p[1..], t, d);
      assert [p[0]] + p[1..] == p;
    }
  }

  /**
    The first part of a split is the longest separator-free prefix: it is a
    prefix of `s`, and either all of `s` or followed by the separator.
   */
  lemma {:induction false} SplitHead(s: string, d: char)
    ensures Split(s, d)[0] <= s
    ensures |Split(s, d)[0]| == |s| || s[|Split(s, d)[0]|] == d
    ensures |Split(s, d)| == 1 <==> d !in s
  {
    if |s| > 0 {
      SplitHead(s[1..], d);
      if s[0] != d {
        assert s == [s[0]] + s[1..];
      }
    }
  }

  /** The whitespace `$.trim` removes: ASCII blanks and the no-break space. */
  predicate IsSpace(c: char)
  {
    c == ' ' || c == '\t' || c == '\n' || c == '\r' || c == '\U{000B}' || c == '\U{000C}' || c == '\U{00A0}'
  }

  /** `s` with its leading and trailing whitespace removed. */
  function Trim(s: string): (r: string)
    ensures |r| <= |s|
  {
    var i := SkipLeading(s, 0);
    var j := SkipTrailing(s, i, |s|);
    s[i..j]
  }

  /**
    Trimming removes exactly the outer whitespace: the result is a slice of
    the input with only whitespace around it, and it neither starts nor
    ends with whitespace.
   */
  lemma TrimRemovesOuterSpace(s: string)
    ensures exists i, j ::
              && 0 <= i <= j <= |s| && Trim(s) == s[i..j]
              && (forall k :: 0 <= k < i ==> IsSpace(s[k]))
              && (forall k :: j <= k < |s| ==> IsSpace(s[k]))
    ensures |Trim(s)| > 0 ==> !IsSpace(Trim(s)[0]) && !IsSpace(Trim(s)[|Trim(s)| - 1])
  {
    var i := SkipLeading(s, 0);
    var j := SkipTrailing(s, i, |s|);
    assert Trim(s) == s[i..j];
  }

  function SkipLeading(s: string, i: nat): (k: nat)
    requires i <= |s|
    decreases |s| - i
    ensures i <= k <= |s|
    ensures forall m :: i <= m < k ==> IsSpace(s[m])
    ensures k < |s| ==> !IsSpace(s[k])
  {
    if i < |s| && IsSpace(s[i]) then SkipLeading(s, i + 1) else i
  }

  function SkipTrailing(s: string, lo: nat, j: nat): (k: nat)
    requires lo <= j <= |s|
    decreases j
    ensures lo <= k <= j
    ensures forall m :: k <= m < j ==> IsSpace(s[m])
    ensures k > lo ==> !IsSpace(s[k - 1])
  {
    if j > lo && IsSpace(s[j - 1]) then SkipTrailing(s, lo, j - 1) else j
  }

  /** Trimming an already trimmed string changes nothing. */
  lemma TrimIdempotent(s: string)
    ensures Trim(Trim(s)) == Trim(s)
  {
  }
}
